=== FILE: README.md ===
# Sensor network protocol core, modelled in Dafny

This project models the protocol logic of `sensor_net.py`, the client side of a small
XBee/ZigBee sensor network. A controller sends one-byte-tagged requests to remote nodes
and reads typed I/O values back. The model covers:

- the wire tags: `Packet` (packet types 16..23, 254, 255) and `Node.Payload` (six payload
  kinds, values 0..5), and the `Node` record (module `Protocol`);
- request encoding: the kind/index byte `(kind << 4) + index` and the request bodies of
  `get_node_io`, `get_payload_info` and `get_data` (module `Codec`);
- response decoding: the IO_RESPONSE byte-to-(kind, count) dictionary, the MSB-first
  8-bit boolean vector, the big-endian 2-byte integer (module `Codec`) and the raw passthrough (`SensorNetwork.DecodeData`);
- the mailbox: the transport callback `_handle_data`, which queues response frames and
  records discovered nodes, and one scan of `_wait_for_response` over the queue, as a
  pure function returning `Match(payload, queue) | Nack(queue) | NoMatch` (module `Mailbox`);
- the public reads `get_node_io`, `get_payload_info` and `get_data`. Each is a pure
  function from the queue and the arguments to either `Invalid(error)` (raised before
  anything is transmitted) or `Sent(request, reply)`. The reply after one scan is
  `Waiting`, `Answered(value, queue)` or `Failed(error, queue)` (module `SensorNetwork`).

Bytes are integers in 0..255. Python's `b >> 4` is `b / 16`, `b & 15` is `b % 16`, and
`(x & 1 << i) >> i == 1` is `Bit(x, i)`, the lowest bit after i halvings. The radio is
not modelled: a request is returned as the bytes handed to `tx`, and inbound frames are
the queue argument, which is returned explicitly. Python's `list.remove(msg)` removes the
first element equal to `msg`. It is modelled that way (`Mailbox.RemoveFirst`), and
`Mailbox.RemoveFirstAt` proves that this removes exactly the scanned frame.

Behaviour of sensor_net.py worth noting:
- The code has six payload kinds. DIGITAL_OUTPUT is 3 and BYTE_OUTPUT is 5.
- The prefix test requires at least one byte after the prefix (`len(rf_data) > 1 + len(following)`).
- A kind repeated in an IO_RESPONSE overwrites the earlier count; it is not rejected.
- There is no timeout, no `send_data`/SET_REQUEST operation and no ACK wait.
- The kind/index byte is built with `+`, which equals `|` for an index in 0..15.

## Model

| member | source | states |
|---|---|---|
| Protocol.PayloadFromValue | sensor_net.py:33-40 | `Node.Payload(v)` exists exactly for v in 0..5, and the kind it gives has value v |
| Protocol.PayloadValueRoundTrip | sensor_net.py:33-40 | every payload kind has a value in 0..5 and is recovered from it |
| Protocol.PacketValueInjective | sensor_net.py:16-27 | distinct packet types have distinct wire values |
| Base.HighNibble | sensor_net.py:161 | Python's `b >> 4` of a byte is below 16, and together with `b % 16` it rebuilds the byte |
| Base.LowNibble | sensor_net.py:161 | Python's `b & 15` of a byte is below 16, and sixteen times the high nibble plus it gives the byte back |
| Codec.KindIndexByte | sensor_net.py:183 | for index 0..15 the slot byte `(kind << 4) + index` fits in a byte, its high nibble is the kind value and its low nibble the index |
| Codec.KindIndexByteInjective | sensor_net.py:199 | two slots share a slot byte only if they have the same kind and index |
| Codec.SlotRequestBody | sensor_net.py:199 | a slot request body is exactly two bytes: the request type, then the slot byte whose nibbles are the kind and index |
| Codec.SlotCount | sensor_net.py:161 | the count advertised by an IO_RESPONSE byte, `(b & 15) + 1`, is between 1 and 16 |
| Codec.KindOf | sensor_net.py:161 | the kind named by an IO_RESPONSE byte has the byte's high nibble as its value |
| Codec.DecodeIoResponse | sensor_net.py:158-162 | decoding an IO_RESPONSE payload succeeds exactly when every byte's high nibble names an existing kind (0..5) |
| Codec.IoErrorIsFirstUnknown | sensor_net.py:160-161 | a failed decode raises on the first byte whose kind does not exist, reporting that kind value |
| Codec.IoKeys | sensor_net.py:160-161 | the decoded dictionary's keys are exactly the kinds the payload bytes name |
| Codec.IoLastWins | sensor_net.py:160-161 | each kind maps to the count of the last byte naming it, so a later byte overwrites an earlier one |
| Codec.IoCountsInRange | sensor_net.py:161 | every count in a decoded dictionary is between 1 and 16 |
| Codec.BoolVector | sensor_net.py:203 | the decoded vector has 8 entries, entry j is bit 7 - j of the data byte, and read as binary digits most significant first it is the data byte |
| Codec.BoolVectorRoundTrip | sensor_net.py:203 | packing the decoded booleans gives the data byte back, so the decode loses nothing |
| Codec.PackBitsRoundTrip | sensor_net.py:203 | every vector of 8 booleans is the decode of the byte it packs to |
| Codec.Uint16 | sensor_net.py:209 | `(data[0] << 8) + data[1]` is below 65536, and dividing by 256 gives back data[0] and data[1] |
| Mailbox.HandleData | sensor_net.py:69-99 | the callback appends the frame exactly when it has a non-empty RF payload starting with IO_RESPONSE, INFO_RESPONSE, DATA_RESPONSE or CTRL_NACK; it appends one node exactly for an ND command response; otherwise nothing changes |
| Mailbox.HandleDataKeepsQueueWellFormed | sensor_net.py:71-83 | every queued frame has a non-empty body that starts with a response type, and the callback preserves this |
| Mailbox.Accepts | sensor_net.py:124-139 | an accepted frame starts with the expected type byte; with a prefix it has more bytes than type byte plus prefix; with a count its length is the count |
| Mailbox.IsNackFor | sensor_net.py:124-141 | a frame that passes the NACK test is never accepted unless CTRL_NACK is the expected type, so the order of the acceptance test and the NACK test does not matter for any of the three reads |
| Mailbox.RemoveFirst | sensor_net.py:126 | `list.remove` takes out one occurrence of the element and keeps every other element |
| Mailbox.AcceptsIff | sensor_net.py:124-139 | the four acceptance branches together accept a frame exactly when its type byte matches, a given prefix follows it with at least one more byte after, and a given count equals the body length |
| Mailbox.AcceptedShape | sensor_net.py:129 | a frame accepted with a prefix is the type byte, then the prefix, then the rest of its payload |
| Mailbox.RemoveFirstAt | sensor_net.py:126 | `list.remove` of a frame that no earlier frame equals removes exactly that position |
| Mailbox.ScanFrom | sensor_net.py:121-143 | a payload returned by the scan meets the prefix and length constraints; a claiming scan shortens the queue by one |
| Mailbox.Scan | sensor_net.py:120-143 | the same for a scan of the whole queue |
| Mailbox.ScanDecidedAt | sensor_net.py:121-143 | if position i holds the first frame from the node that is accepted or is a matching NACK, the scan returns that frame's bytes after the type byte (or NACK) and removes only position i |
| Mailbox.ScanSpec | sensor_net.py:120-143 | the scan finds nothing exactly when no frame from the node is accepted or a matching NACK; otherwise its result is that of the first such frame |
| Mailbox.ScanKeepsOthers | sensor_net.py:122 | frames from other nodes or without a source address stay in the queue, in their original order |
| Mailbox.ScanKeepsQueueWellFormed | sensor_net.py:126-142 | removing the claimed frame keeps the queue well formed |
| Mailbox.ScanAfterArrivals | sensor_net.py:120-121 | after a scan that found nothing, a retry over the queue plus newly arrived frames behaves like a scan of the new frames alone, and the old frames stay in front |
| SensorNetwork.GetNodeIo | sensor_net.py:145-162 | get_node_io always transmits `[IO_REQUEST]`, and it waits exactly when the scan finds nothing |
| SensorNetwork.GetNodeIoAnswer | sensor_net.py:156-162 | an answer is the decode of the first IO_RESPONSE from the node, which alone leaves the queue; all counts are 1..16 |
| SensorNetwork.GetNodeIoFailure | sensor_net.py:141-161 | a failure is either a `[CTRL_NACK, IO_REQUEST]` frame from the node or an IO_RESPONSE naming a missing kind; either way that frame is consumed |
| SensorNetwork.GetPayloadInfo | sensor_net.py:164-186 | get_payload_info raises IndexOutOfBounds without transmitting exactly when the index is outside 0..15; otherwise it sends `[INFO_REQUEST, slot byte]` and waits exactly when the scan finds nothing, any answer is non-empty, and any failure is a NACK |
| SensorNetwork.PayloadInfoAnswer | sensor_net.py:183-186 | an answer is the bytes after `[INFO_RESPONSE, slot byte]` of the first deciding frame from the node, which alone leaves the queue |
| SensorNetwork.PayloadInfoNack | sensor_net.py:141-143 | a failed get_payload_info consumed a `[CTRL_NACK, INFO_REQUEST]` frame from the node, the first deciding frame |
| SensorNetwork.DecodeData | sensor_net.py:201-211 | the value bytes decode by kind: a boolean vector that packs back to the one value byte, that byte's value (corrected line 206), the big-endian two-byte value, or the raw bytes unchanged |
| SensorNetwork.Analogue1ByteAsWritten | sensor_net.py:206 | `int(data)` on one byte succeeds only for an ASCII digit and yields the digit, not the byte value |
| SensorNetwork.Analogue1ByteAsWrittenCounterexample | sensor_net.py:206 | the value byte 0x05 raises ValueError and the value byte 0x35 reads as 5 |
| SensorNetwork.GetData | sensor_net.py:188-211 | get_data raises without transmitting exactly for a sink kind (SinkPayload, checked first) or an index outside 0..15; otherwise it sends `[DATA_REQUEST, slot byte]` and waits exactly when the scan finds nothing; answers have the kind's shape (8 booleans, a byte value, a value below 65536, non-empty raw bytes); any failure is a NACK |
| SensorNetwork.GetDataAnswer | sensor_net.py:199-211 | an answer comes from the first deciding DATA_RESPONSE frame for the slot, which alone leaves the queue. Its body is `[17, slot byte]` plus: the byte whose MSB-first bits are the boolean answer; the one-byte value; the two-byte value big-endian; or the raw answer |
| SensorNetwork.GetDataNack | sensor_net.py:141-143 | a failed get_data consumed a `[CTRL_NACK, DATA_REQUEST]` frame from the node, the first deciding frame |
| Scenarios.IoResponseExample | sensor_net.py:160-161 | payload `[0x05, 0x23]` decodes to six ANALOGUE_1BYTE and four DIGITAL_INPUT slots |
| Scenarios.IoResponseRepeatedKind | sensor_net.py:160-161 | payload `[0x05, 0x02]` keeps the later count, 3 |
| Scenarios.IoResponseUnknownKind | sensor_net.py:160-161 | payload `[0x05, 0x65]` raises on the second byte, whose kind 6 does not exist |
| Scenarios.BoolVectorExample | sensor_net.py:203 | data byte 0xB0 decodes to `[true, false, true, true, false, false, false, false]` |
| Scenarios.PrefixNeedsOneMoreByte | sensor_net.py:129 | a frame consisting of only the type byte and the prefix is not accepted |
| Scenarios.NackBeforeResponse | sensor_net.py:141-143 | a NACK queued before the node's response wins, and the other frames stay in order |
| Scenarios.NoSourceAddressSkipped | sensor_net.py:122 | a frame without a source address is skipped even when its body matches |

## Left out

- Serial and XBee plumbing are not modelled, because they are foreign I/O: `serial.Serial`, `ZigBee`, `tx`, `at`, `halt`, `close`, `stop` and `discover`. `discover` only issues the ND command and sleeps. A request is modelled as the bytes that would go to `tx`.
- The `while True` busy-wait of `_wait_for_response` and the sharing of the queue between the callback thread and caller threads are not modelled. One scan is modelled instead, and `Waiting` stands for "scan again". `Mailbox.ScanAfterArrivals` states what a retry sees after new frames arrive.
- Logging, `print` of unknown data, the `tx_status` delivery check (it only logs) and `Node.__repr__` are not modelled.
- The `TypeError` checks on `node`, `payload` and `index` are not modelled, because Dafny's types enforce them.
- The callback's `data['command'].decode('utf-8')` is not modelled: the command is taken as already-decoded text. A missing `parameter` key raises `KeyError`, and the model then leaves the state unchanged.
- A frame whose RF payload is empty makes `data['rf_data'][0]` raise inside the callback. The model leaves the state unchanged for it.
- Frames keep only their source address and RF payload. Dictionary equality in `list.remove` also compares other keys. That does not change which frame is removed: an earlier equal frame would have been claimed first.
- The `index=0` default of `get_payload_info` and `get_data` is not modelled: every call passes the index explicitly.
- The insertion order of the dictionary that `get_node_io` returns is not modelled: the result is a Dafny `map`, which has no order.
- `main.py` is a hardware demo script and is not part of this model.

## Findings

| source | as written | input that shows it | evidently intended | confidence | as-written member | corrected member |
|---|---|---|---|---|---|---|
| sensor_net.py:206 | `int(data)` on the one-byte `bytes` value parses it as decimal text | value byte 0x05 raises ValueError; value byte 0x35 reads as 5 instead of 53 | the byte's unsigned value `data[0]`, as the boolean branch uses `int(data[0])` | high; not executed | SensorNetwork.Analogue1ByteAsWrittenCounterexample | SensorNetwork.GetDataAnswer |

`SensorNetwork.GetData` uses the corrected decode: an ANALOGUE_1BYTE answer is `Number(data[0])`.

=== FILE: base.dfy ===
/** Basic value types shared by the model of the sensor network protocol:
    bytes, optional values, results, and the bit operations the wire
    format uses. */
module Base {

  /** A byte of a frame body, as a Python `bytes` element. */
  type byte = x: int | 0 <= x < 256

  /** A value that may be absent (Python's `None`, or a missing dictionary key). */
  datatype Option<+T> = None | Some(value: T)

  /** The outcome of an operation that may raise an exception. */
  datatype Result<+T, +E> = Ok(value: T) | Err(error: E)

  /** Bit i of a non-negative integer, Python's `(x & 1 << i) >> i == 1`:
      the lowest bit of x after shifting it right i times. */
  predicate Bit(x: nat, i: nat)
  {
    if i == 0 then x % 2 == 1 else Bit(x / 2, i - 1)
  }

  /** The high nibble of a byte, Python's `b >> 4`. */
  function HighNibble(b: byte): (r: nat)
    ensures r < 16
    ensures b == 16 * r + b % 16
  {
    b / 16
  }

  /** The low nibble of a byte, Python's `b & 15`. */
  function LowNibble(b: byte): (r: nat)
    ensures r < 16
    ensures b == 16 * HighNibble(b) + r
  {
    b % 16
  }
}

=== FILE: codec.dfy ===
/** Encoding of request bodies and decoding of response payloads of the
    sensor network's wire format. */
module Codec {
  import opened Base
  import opened Protocol

  /** Python's `(payload.value << 4) + index`: the byte naming one I/O slot,
      kind in the high nibble and index in the low nibble. */
  function KindIndexByte(k: PayloadKind, index: int): (r: byte)
    requires 0 <= index <= 15
    ensures HighNibble(r) == k.Value()
    ensures LowNibble(r) == index
  {
    k.Value() * 16 + index
  }

  /** Two slots are named by the same byte only if they are the same slot. */
  lemma KindIndexByteInjective(k: PayloadKind, i: int, k': PayloadKind, i': int)
    requires 0 <= i <= 15 && 0 <= i' <= 15
    ensures KindIndexByte(k, i) == KindIndexByte(k', i') <==> k == k' && i == i'
  {
    if KindIndexByte(k, i) == KindIndexByte(k', i') {
      PayloadValueRoundTrip(k);
      PayloadValueRoundTrip(k');
    }
  }

  /** Body of an IO_REQUEST frame. */
  function IoRequestBody(): (r: seq<byte>)
  {
    [IoRequest.Value()]
  }

  /** Body of an INFO_REQUEST or DATA_REQUEST frame for one slot. */
  function SlotRequestBody(p: Packet, k: PayloadKind, index: int): (r: seq<byte>)
    requires 0 <= index <= 15
    ensures |r| == 2 && r[0] == p.Value()
    ensures HighNibble(r[1]) == k.Value() && LowNibble(r[1]) == index
  {
    [p.Value(), KindIndexByte(k, index)]
  }

  /** The byte's high nibble is the value of one of the six payload kinds, so
      Python's `Node.Payload(b >> 4)` does not raise. */
  predicate KnownKind(b: byte)
  {
    HighNibble(b) <= 5
  }

  /** The number of slots of one kind an IO_RESPONSE byte advertises,
      Python's `(b & 15) + 1`. */
  function SlotCount(b: byte): (r: nat)
    ensures 1 <= r <= 16
  {
    LowNibble(b) + 1
  }

  /** The kind of a known IO_RESPONSE byte, Python's `Node.Payload(b >> 4)`. */
  function KindOf(b: byte): (k: PayloadKind)
    requires KnownKind(b)
    ensures k.Value() == HighNibble(b)
  {
    PayloadFromValue(HighNibble(b)).value
  }

  /** No byte after position j names the same kind as the byte at j. */
  ghost predicate LastOfItsKind(data: seq<byte>, j: int)
    requires 0 <= j < |data|
  {
    forall j' :: j < j' < |data| ==> HighNibble(data[j']) != HighNibble(data[j])
  }

  /** Position j holds the first byte of data whose kind does not exist. */
  ghost predicate FirstUnknown(data: seq<byte>, j: int)
  {
    0 <= j < |data| && !KnownKind(data[j]) && forall j' :: 0 <= j' < j ==> KnownKind(data[j'])
  }

  /** Decoding of an IO_RESPONSE payload (the loop of get_node_io): each byte,
      in order, stores its slot count under its kind, and the first byte whose
      kind does not exist raises. */
  function DecodeIoResponse(data: seq<byte>): (r: Result<map<PayloadKind, nat>, Error>)
    ensures r.Ok? <==> forall j :: 0 <= j < |data| ==> KnownKind(data[j])
  {
    if |data| == 0 then Ok(map[])
    else
      var b := data[|data| - 1];
      var prev := DecodeIoResponse(data[..|data| - 1]);
      if prev.Err? then prev
      else if !KnownKind(b) then Err(UnknownPayload(HighNibble(b)))
      else Ok(prev.value[KindOf(b) := SlotCount(b)])
  }

  /** A failed IO_RESPONSE decode reports the kind of the first unknown byte. */
  lemma {:induction false} IoErrorIsFirstUnknown(data: seq<byte>)
    requires DecodeIoResponse(data).Err?
    ensures exists j :: FirstUnknown(data, j) && DecodeIoResponse(data).error == UnknownPayload(HighNibble(data[j]))
  {
    var init := data[..|data| - 1];
    if DecodeIoResponse(init).Err? {
      IoErrorIsFirstUnknown(init);
      var j :| FirstUnknown(init, j) && DecodeIoResponse(init).error == UnknownPayload(HighNibble(init[j]));
      assert FirstUnknown(data, j);
    } else {
      assert FirstUnknown(data, |data| - 1);
    }
  }

  /** The decoded dictionary holds exactly the kinds the payload names. */
  lemma {:induction false} IoKeys(data: seq<byte>)
    requires DecodeIoResponse(data).Ok?
    ensures forall k :: k in DecodeIoResponse(data).value <==>
                        exists j :: 0 <= j < |data| && HighNibble(data[j]) == k.Value()
  {
    if |data| > 0 {
      var init := data[..|data| - 1];
      IoKeys(init);
      forall k
        ensures k in DecodeIoResponse(data).value <==>
                exists j :: 0 <= j < |data| && HighNibble(data[j]) == k.Value()
      {
        if exists j :: 0 <= j < |data| && HighNibble(data[j]) == k.Value() {
          var j :| 0 <= j < |data| && HighNibble(data[j]) == k.Value();
          if j < |data| - 1 {
            assert init[j] == data[j];
          } else {
            PayloadValueRoundTrip(k);
          }
        }
        if k in DecodeIoResponse(init).value {
          var j :| 0 <= j < |init| && HighNibble(init[j]) == k.Value();
          assert data[j] == init[j];
        }
      }
    }
  }

  /** When a kind is named more than once, the last byte naming it decides its
      count: a later byte overwrites an earlier one. */
  lemma {:induction false} IoLastWins(data: seq<byte>)
    requires DecodeIoResponse(data).Ok?
    ensures forall j :: 0 <= j < |data| && LastOfItsKind(data, j) ==>
              KindOf(data[j]) in DecodeIoResponse(data).value &&
              DecodeIoResponse(data).value[KindOf(data[j])] == SlotCount(data[j])
  {
    if |data| > 0 {
      var init := data[..|data| - 1];
      var last := data[|data| - 1];
      IoLastWins(init);
      forall j | 0 <= j < |data| && LastOfItsKind(data, j)
        ensures KindOf(data[j]) in DecodeIoResponse(data).value
        ensures DecodeIoResponse(data).value[KindOf(data[j])] == SlotCount(data[j])
      {
        if j < |data| - 1 {
          assert init[j] == data[j];
          assert LastOfItsKind(init, j);
          assert HighNibble(last) != HighNibble(data[j]);
          assert KindOf(last) != KindOf(data[j]);
        }
      }
    }
  }

  /** Every count in a decoded IO_RESPONSE is between 1 and 16. */
  lemma {:induction false} IoCountsInRange(data: seq<byte>)
    requires DecodeIoResponse(data).Ok?
    ensures forall k :: k in DecodeIoResponse(data).value ==> 1 <= DecodeIoResponse(data).value[k] <= 16
  {
    if |data| > 0 {
      IoCountsInRange(data[..|data| - 1]);
    }
  }

  /** 2 to the power n. */
  function Pow2(n: nat): nat
  {
    if n == 0 then 1 else 2 * Pow2(n - 1)
  }

  /** The low n bits of x as booleans, most significant bit first. */
  function Unpack(x: nat, n: nat): (v: seq<bool>)
    ensures |v| == n
  {
    seq(n, j requires 0 <= j < n => Bit(x, n - 1 - j))
  }

  /** The number whose binary digits, most significant first, are v. */
  function Pack(v: seq<bool>): (x: nat)
  {
    if |v| == 0 then 0 else 2 * Pack(v[..|v| - 1]) + (if v[|v| - 1] then 1 else 0)
  }

  /** Unpacking n bits peels off the lowest bit as the last element. */
  lemma UnpackStep(x: nat, n: nat)
    requires n > 0
    ensures Unpack(x, n) == Unpack(x / 2, n - 1) + [x % 2 == 1]
  {
    var u := Unpack(x, n);
    var w := Unpack(x / 2, n - 1) + [x % 2 == 1];
    forall j | 0 <= j < n
      ensures u[j] == w[j]
    {
      if j < n - 1 {
        assert Bit(x, n - 1 - j) == Bit(x / 2, n - 2 - j);
      }
    }
  }

  /** Packing n booleans gives a number below 2 to the power n. */
  lemma {:induction false} PackBound(v: seq<bool>)
    ensures Pack(v) < Pow2(|v|)
  {
    if |v| > 0 {
      PackBound(v[..|v| - 1]);
    }
  }

  /** Packing the unpacked bits of a number below 2^n gives the number back. */
  lemma {:induction false} PackUnpack(x: nat, n: nat)
    requires x < Pow2(n)
    ensures Pack(Unpack(x, n)) == x
  {
    if n > 0 {
      UnpackStep(x, n);
      PackUnpack(x / 2, n - 1);
      assert Unpack(x, n)[..n - 1] == Unpack(x / 2, n - 1);
    }
  }

  /** Unpacking a packed vector gives the vector back. */
  lemma {:induction false} UnpackPack(v: seq<bool>)
    ensures Unpack(Pack(v), |v|) == v
  {
    if |v| > 0 {
      var init := v[..|v| - 1];
      UnpackPack(init);
      UnpackStep(Pack(v), |v|);
      assert Pack(v) / 2 == Pack(init);
      assert v == init + [v[|v| - 1]];
    }
  }

  /** Decoding of a DIGITAL_OUTPUT data byte into eight booleans, most
      significant bit first (Python's list comprehension over
      `reversed(range(0, 8))`). */
  function BoolVector(d: byte): (v: seq<bool>)
    ensures |v| == 8
    ensures forall j :: 0 <= j < 8 ==> (v[j] <==> Bit(d, 7 - j))
    ensures Pack(v) == d
  {
    PackUnpack(d, 8);
    Unpack(d, 8)
  }

  /** The inverse of BoolVector: the byte whose bits, most significant
      first, are v. */
  function PackBits(v: seq<bool>): (b: byte)
    requires |v| == 8
  {
    PackBound(v);
    Pack(v)
  }

  /** Decoding a data byte into booleans loses nothing: packing them gives
      the byte back. This restates BoolVector's postcondition `Pack(v) == d`
      through PackBits. */
  lemma BoolVectorRoundTrip(d: byte)
    ensures PackBits(BoolVector(d)) == d
  {
    PackUnpack(d, 8);
  }

  /** Every vector of eight booleans is the decoding of exactly one byte. */
  lemma PackBitsRoundTrip(v: seq<bool>)
    requires |v| == 8
    ensures BoolVector(PackBits(v)) == v
  {
    UnpackPack(v);
  }

  /** Decoding of an ANALOGUE_2BYTE value, Python's `(data[0] << 8) + data[1]`:
      a big-endian unsigned 16-bit integer. */
  function Uint16(hi: byte, lo: byte): (n: nat)
    ensures n < 65536
    ensures n / 256 == hi && n % 256 == lo
  {
    hi * 256 + lo
  }
}

=== FILE: mailbox.dfy ===
/** The session state of a sensor network client: the nodes found by
    discovery and the queue of response frames not yet claimed. Models the
    transport callback `_handle_data` and one scan of `_wait_for_response`. */
module Mailbox {
  import opened Base
  import opened Protocol

  /** A queued frame: the received message's source long address, when the
      message has one, and its RF payload, the frame body. */
  datatype Frame = Frame(sourceAddrLong: Option<seq<byte>>, rfData: seq<byte>)

  /** The `parameter` of a node discovery (ND) command response. */
  datatype DiscoveryParams = DiscoveryParams(sourceAddrLong: seq<byte>, nodeIdentifier: seq<byte>)

  /** A packet delivered by the radio driver to the callback: a dictionary
      whose keys may or may not be present. */
  datatype Event = Event(
    rfData: Option<seq<byte>>,
    sourceAddrLong: Option<seq<byte>>,
    id: Option<string>,
    command: Option<string>,
    parameter: Option<DiscoveryParams>)

  /** The state shared by the callback and the callers: discovered nodes and
      queued response frames, in arrival order. */
  datatype Session = Session(slaveNodes: seq<Node>, messageQueue: seq<Frame>)

  /** The response types the callback queues. */
  predicate IsQueuedType(b: byte)
  {
    exists p: Packet :: p in {IoResponse, InfoResponse, DataResponse, CtrlNack} && p.Value() == b
  }

  /** Every queued frame has a non-empty body whose first byte is a queued type. */
  ghost predicate WellFormedQueue(q: seq<Frame>)
  {
    forall i :: 0 <= i < |q| ==> |q[i].rfData| > 0 && IsQueuedType(q[i].rfData[0])
  }

  /** The callback `_handle_data`. A message with an RF payload is queued when
      its first byte is one of the four response types and dropped otherwise
      (an empty payload makes the callback raise before it changes anything);
      a transmit status only logs; an ND command response adds the discovered
      node; everything else only logs. */
  function HandleData(s: Session, e: Event): (s': Session)
    ensures s'.messageQueue == s.messageQueue ||
              (e.rfData.Some? && s'.messageQueue == s.messageQueue + [Frame(e.sourceAddrLong, e.rfData.value)])
    ensures s'.messageQueue != s.messageQueue <==>
              e.rfData.Some? && |e.rfData.value| > 0 && IsQueuedType(e.rfData.value[0])
    ensures s'.slaveNodes == s.slaveNodes ||
              (e.parameter.Some? && s'.slaveNodes == s.slaveNodes + [Node(e.parameter.value.sourceAddrLong, e.parameter.value.nodeIdentifier)])
    ensures s'.slaveNodes != s.slaveNodes <==>
              e.rfData.None? && e.id != Some("tx_status") && e.command == Some("ND") && e.parameter.Some?
  {
    if e.rfData.Some? then
      var rf := e.rfData.value;
      if |rf| == 0 then s
      else if rf[0] == IoResponse.Value() || rf[0] == InfoResponse.Value()
           || rf[0] == DataResponse.Value() || rf[0] == CtrlNack.Value() then
        s.(messageQueue := s.messageQueue + [Frame(e.sourceAddrLong, rf)])
      else s
    else if e.id == Some("tx_status") then s
    else if e.command.Some? then
      if e.command.value == "ND" && e.parameter.Some? then
        var p := e.parameter.value;
        s.(slaveNodes := s.slaveNodes + [Node(p.sourceAddrLong, p.nodeIdentifier)])
      else s
    else s
  }

  /** The callback keeps every queued frame well formed. */
  lemma HandleDataKeepsQueueWellFormed(s: Session, e: Event)
    requires WellFormedQueue(s.messageQueue)
    ensures WellFormedQueue(HandleData(s, e).messageQueue)
  {
    var q' := HandleData(s, e).messageQueue;
    if q' != s.messageQueue {
      forall i | 0 <= i < |q'|
        ensures |q'[i].rfData| > 0 && IsQueuedType(q'[i].rfData[0])
      {
        if i < |s.messageQueue| {
          assert q'[i] == s.messageQueue[i];
        }
      }
    }
  }

  /** What a waiting call accepts (the arguments of `_wait_for_response`):
      the node, the expected packet type, the request type whose NACK fails
      the call, an optional prefix of the bytes after the type byte, and an
      optional total body length. */
  datatype Criteria = Criteria(
    node: Node,
    accepted: Packet,
    failType: Packet,
    following: Option<seq<byte>>,
    count: Option<int>)

  /** The frame came from the criteria's node: it has a source address and
      that address is the node's long address. */
  predicate FromNode(c: Criteria, f: Frame)
  {
    f.sourceAddrLong.Some? && f.sourceAddrLong.value == c.node.longAddr
  }

  /** The four acceptance branches, in source order: no constraint; prefix
      only (with at least one byte after it); length only; prefix and length. */
  predicate Accepts(c: Criteria, f: Frame)
    ensures Accepts(c, f) ==> |f.rfData| > 0 && f.rfData[0] == c.accepted.Value()
    ensures Accepts(c, f) && c.following.Some? ==> |f.rfData| > 1 + |c.following.value|
    ensures Accepts(c, f) && c.count.Some? ==> |f.rfData| == c.count.value
  {
    var d := f.rfData;
    |d| > 0 && d[0] == c.accepted.Value() &&
    if c.following.None? && c.count.None? then true
    else if c.count.None? && |d| > 1 + |c.following.value| && d[1..|c.following.value| + 1] == c.following.value then true
    else if c.following.None? && |d| == c.count.value then true
    else c.count.Some? && |d| == c.count.value && c.following.Some?
         && |d| > 1 + |c.following.value| && d[1..|c.following.value| + 1] == c.following.value
  }

  /** The payload after the type byte satisfies the criteria's prefix and
      length constraints. */
  predicate PayloadMeets(c: Criteria, p: seq<byte>)
  {
    (c.following.Some? ==> |p| > |c.following.value| && c.following.value <= p)
    && (c.count.Some? ==> |p| + 1 == c.count.value)
  }

  /** Acceptance, stated as independent constraints: the type byte matches,
      and each given constraint holds of the payload. */
  lemma AcceptsIff(c: Criteria, f: Frame)
    ensures Accepts(c, f) <==>
              |f.rfData| > 0 && f.rfData[0] == c.accepted.Value() && PayloadMeets(c, f.rfData[1..])
  {
    var d := f.rfData;
    if |d| > 0 && c.following.Some? && |d| > 1 + |c.following.value| {
      assert d[1..|c.following.value| + 1] == d[1..][..|c.following.value|];
    }
  }

  /** An accepted frame with a prefix is the type byte, the prefix, then the payload rest. */
  lemma AcceptedShape(c: Criteria, f: Frame)
    requires Accepts(c, f) && c.following.Some?
    ensures f.rfData == [c.accepted.Value()] + c.following.value + f.rfData[1 + |c.following.value|..]
  {
    var d := f.rfData;
    var n := |c.following.value|;
    AcceptsIff(c, f);
    assert d[1..][..n] == d[1..n + 1];
    assert d == [d[0]] + d[1..n + 1] + d[n + 1..];
  }

  /** The NACK test: a two-byte CTRL_NACK frame naming the failing request
      type. A NACK is never also an accepted response unless CTRL_NACK itself is
      the expected type, so trying acceptance first and the NACK test second
      decides the same frames either way. */
  predicate IsNackFor(c: Criteria, f: Frame)
    ensures IsNackFor(c, f) && c.accepted != CtrlNack ==> !Accepts(c, f)
  {
    PacketValueInjective(c.accepted, CtrlNack);
    |f.rfData| == 2 && f.rfData[0] == CtrlNack.Value() && f.rfData[1] == c.failType.Value()
  }

  /** A frame that ends the scan: from the node, and accepted or a NACK for the request. */
  predicate Decides(c: Criteria, f: Frame)
  {
    FromNode(c, f) && (Accepts(c, f) || IsNackFor(c, f))
  }

  /** The result of one scan of the queue. */
  datatype ScanResult =
    | Match(payload: seq<byte>, queue: seq<Frame>)  // the call returns payload
    | Nack(queue: seq<Frame>)                       // the call raises ProtocolError
    | NoMatch                                       // the call scans again

  /** Python's `list.remove(x)`: drop the first element equal to x. */
  function RemoveFirst<T(==)>(q: seq<T>, x: T): (r: seq<T>)
    requires x in q
    ensures |r| == |q| - 1
    ensures multiset(r) + multiset{x} == multiset(q)
  {
    assert q == [q[0]] + q[1..];
    if q[0] == x then q[1..] else [q[0]] + RemoveFirst(q[1..], x)
  }

  /** When no element before position i equals q[i], removing the first
      element equal to q[i] removes exactly position i. */
  lemma {:induction false} RemoveFirstAt<T>(q: seq<T>, i: int)
    requires 0 <= i < |q|
    requires forall j :: 0 <= j < i ==> q[j] != q[i]
    ensures RemoveFirst(q, q[i]) == q[..i] + q[i + 1..]
  {
    if i > 0 {
      assert q[1..][i - 1] == q[i];
      RemoveFirstAt(q[1..], i - 1);
      assert q[1..][..i - 1] == q[1..i];
      assert q[1..][i..] == q[i + 1..];
      assert [q[0]] + q[1..i] == q[..i];
    }
  }

  /** The `for msg in self._message_queue` loop from position k on: the first
      frame from the node that is accepted is removed and its bytes after the
      type byte returned; failing that, the first NACK from the node for the
      request is removed and the call raises. Acceptance is checked before the
      NACK on each frame. */
  function ScanFrom(q: seq<Frame>, c: Criteria, k: nat): (r: ScanResult)
    requires k <= |q|
    ensures r.Match? ==> PayloadMeets(c, r.payload)
    ensures r.Match? || r.Nack? ==> |r.queue| == |q| - 1
    decreases |q| - k
  {
    if k == |q| then NoMatch
    else if FromNode(c, q[k]) && Accepts(c, q[k]) then
      AcceptsIff(c, q[k]);
      Match(q[k].rfData[1..], RemoveFirst(q, q[k]))
    else if FromNode(c, q[k]) && IsNackFor(c, q[k]) then Nack(RemoveFirst(q, q[k]))
    else ScanFrom(q, c, k + 1)
  }

  /** One scan of the whole queue: the body of the `while True` loop of
      `_wait_for_response`, which repeats it until it does not return NoMatch. */
  function Scan(q: seq<Frame>, c: Criteria): (r: ScanResult)
    ensures r.Match? ==> PayloadMeets(c, r.payload)
    ensures r.Match? || r.Nack? ==> |r.queue| == |q| - 1
  {
    ScanFrom(q, c, 0)
  }

  /** Position i holds the first frame of q that decides the scan. */
  ghost predicate FirstDecisive(q: seq<Frame>, c: Criteria, i: int)
  {
    0 <= i < |q| && Decides(c, q[i]) && forall j :: 0 <= j < i ==> !Decides(c, q[j])
  }

  /** The result the scan must give when position i decides it: that frame
      alone is removed, and its payload is returned unless it is a NACK. */
  function Outcome(q: seq<Frame>, c: Criteria, i: int): ScanResult
    requires 0 <= i < |q|
  {
    if Accepts(c, q[i]) then Match(q[i].rfData[1..], q[..i] + q[i + 1..])
    else Nack(q[..i] + q[i + 1..])
  }

  /** Scanning from k skips every frame that does not decide. */
  lemma {:induction false} ScanFromSkips(q: seq<Frame>, c: Criteria, k: nat, i: nat)
    requires k <= i <= |q|
    requires forall j :: k <= j < i ==> !Decides(c, q[j])
    ensures ScanFrom(q, c, k) == ScanFrom(q, c, i)
    decreases i - k
  {
    if k < i {
      ScanFromSkips(q, c, k + 1, i);
    }
  }

  /** Scanning from k finds nothing exactly when no frame from k on decides,
      and otherwise stops at the first deciding frame. */
  lemma {:induction false} ScanFromStops(q: seq<Frame>, c: Criteria, k: nat)
    requires k <= |q|
    ensures ScanFrom(q, c, k) == NoMatch <==> forall j :: k <= j < |q| ==> !Decides(c, q[j])
    ensures ScanFrom(q, c, k) != NoMatch ==>
              exists i :: k <= i < |q| && Decides(c, q[i]) && (forall j :: k <= j < i ==> !Decides(c, q[j]))
    decreases |q| - k
  {
    if k < |q| && !Decides(c, q[k]) {
      ScanFromStops(q, c, k + 1);
    }
  }

  /** The first deciding frame determines the scan's result. */
  lemma ScanDecidedAt(q: seq<Frame>, c: Criteria, i: int)
    requires FirstDecisive(q, c, i)
    ensures Scan(q, c) == Outcome(q, c, i)
  {
    ScanFromSkips(q, c, 0, i);
    forall j | 0 <= j < i
      ensures q[j] != q[i]
    {
      assert !Decides(c, q[j]);
    }
    RemoveFirstAt(q, i);
  }

  /** The scan, characterised completely: it finds nothing exactly when no
      frame decides it, and otherwise its result is that of the first frame
      that does. */
  lemma ScanSpec(q: seq<Frame>, c: Criteria)
    ensures Scan(q, c) == NoMatch <==> forall j :: 0 <= j < |q| ==> !Decides(c, q[j])
    ensures Scan(q, c) != NoMatch ==> exists i :: FirstDecisive(q, c, i) && Scan(q, c) == Outcome(q, c, i)
  {
    ScanFromStops(q, c, 0);
    if Scan(q, c) != NoMatch {
      var i :| 0 <= i < |q| && Decides(c, q[i]) && (forall j :: 0 <= j < i ==> !Decides(c, q[j]));
      ScanDecidedAt(q, c, i);
    }
  }

  /** The frames of q not sent by the criteria's node, in order. */
  function Others(q: seq<Frame>, c: Criteria): (r: seq<Frame>)
    ensures forall f :: f in r ==> f in q && !FromNode(c, f)
  {
    if |q| == 0 then []
    else (if FromNode(c, q[0]) then [] else [q[0]]) + Others(q[1..], c)
  }

  lemma {:induction false} OthersAppend(a: seq<Frame>, b: seq<Frame>, c: Criteria)
    ensures Others(a + b, c) == Others(a, c) + Others(b, c)
  {
    if |a| > 0 {
      assert (a + b)[1..] == a[1..] + b;
      OthersAppend(a[1..], b, c);
    } else {
      assert a + b == b;
    }
  }

  /** A scan never touches frames of other nodes or frames without a source
      address: they stay in the queue in their original order. */
  lemma ScanKeepsOthers(q: seq<Frame>, c: Criteria)
    requires Scan(q, c) != NoMatch
    ensures Others(Scan(q, c).queue, c) == Others(q, c)
  {
    ScanSpec(q, c);
    var i :| FirstDecisive(q, c, i) && Scan(q, c) == Outcome(q, c, i);
    var before, after := q[..i], q[i + 1..];
    var tail := [q[i]] + after;
    assert q == before + tail;
    assert tail[1..] == after;
    assert Others(tail, c) == Others(after, c);
    OthersAppend(before, tail, c);
    OthersAppend(before, after, c);
  }

  /** Removing a frame keeps the queue well formed. */
  lemma ScanKeepsQueueWellFormed(q: seq<Frame>, c: Criteria)
    requires WellFormedQueue(q)
    requires Scan(q, c) != NoMatch
    ensures WellFormedQueue(Scan(q, c).queue)
  {
    ScanSpec(q, c);
    var i :| FirstDecisive(q, c, i) && Scan(q, c) == Outcome(q, c, i);
    var q' := Scan(q, c).queue;
    forall j | 0 <= j < |q'|
      ensures |q'[j].rfData| > 0 && IsQueuedType(q'[j].rfData[0])
    {
      if j < i { assert q'[j] == q[j]; } else { assert q'[j] == q[j + 1]; }
    }
  }

  /** Frames of q followed by frames of more: none decides when none of
      either part does. */
  lemma NoneDecidesAppend(q: seq<Frame>, more: seq<Frame>, c: Criteria, n: int)
    requires 0 <= n <= |more|
    requires forall j :: 0 <= j < |q| ==> !Decides(c, q[j])
    requires forall j :: 0 <= j < n ==> !Decides(c, more[j])
    ensures forall j :: 0 <= j < |q| + n ==> !Decides(c, (q + more)[j])
  {
    forall j | 0 <= j < |q| + n
      ensures !Decides(c, (q + more)[j])
    {
      if j < |q| { assert (q + more)[j] == q[j]; } else { assert (q + more)[j] == more[j - |q|]; }
    }
  }

  /** Retrying after an empty scan: frames that arrive later are matched as if
      the queue held only them, and the earlier frames stay in front. */
  lemma ScanAfterArrivals(q: seq<Frame>, more: seq<Frame>, c: Criteria)
    requires Scan(q, c) == NoMatch
    ensures Scan(q + more, c) ==
              match Scan(more, c)
              case Match(p, rest) => Match(p, q + rest)
              case Nack(rest) => Nack(q + rest)
              case NoMatch => NoMatch
  {
    ScanFromStops(q, c, 0);
    ScanFromStops(more, c, 0);
    if Scan(more, c) == NoMatch {
      NoneDecidesAppend(q, more, c, |more|);
      ScanFromStops(q + more, c, 0);
    } else {
      var i :| 0 <= i < |more| && Decides(c, more[i]) && (forall j :: 0 <= j < i ==> !Decides(c, more[j]));
      ScanDecidedAt(more, c, i);
      ScanAfterArrivalsAt(q, more, c, i);
    }
  }

  lemma ScanAfterArrivalsAt(q: seq<Frame>, more: seq<Frame>, c: Criteria, i: int)
    requires forall j :: 0 <= j < |q| ==> !Decides(c, q[j])
    requires FirstDecisive(more, c, i)
    ensures Scan(q + more, c) == match Outcome(more, c, i)
              case Match(p, rest) => Match(p, q + rest)
              case Nack(rest) => Nack(q + rest)
              case NoMatch => NoMatch
  {
    var all := q + more;
    var n := |q| + i;
    assert all[n] == more[i];
    NoneDecidesAppend(q, more, c, i);
    ScanDecidedAt(all, c, n);
    assert all[..n] + all[n + 1..] == q + (more[..i] + more[i + 1..]);
  }
}

=== FILE: protocol.dfy ===
/** The tags of the sensor network's wire format: packet types, payload
    kinds, and the node record discovered on the radio network. */
module Protocol {
  import opened Base

  /** Packet type: the first byte of every frame body (sensor_net.py, class Packet). */
  datatype Packet =
    | DataRequest | DataResponse | IoRequest | IoResponse | InfoRequest
    | InfoResponse | SetRequest | DataAlert | CtrlNack | CtrlAck
  {
    /** The wire value of the tag. */
    function Value(): byte
    {
      match this
      case DataRequest => 16
      case DataResponse => 17
      case IoRequest => 18
      case IoResponse => 19
      case InfoRequest => 20
      case InfoResponse => 21
      case SetRequest => 22
      case DataAlert => 23
      case CtrlNack => 254
      case CtrlAck => 255
    }
  }

  /** Payload kind of an I/O slot on a node (sensor_net.py, class Node.Payload).
      The 4-bit wire value travels in the high nibble of the kind/index byte. */
  datatype PayloadKind =
    | Analogue1Byte | Analogue2Byte | DigitalInput | DigitalOutput | ByteInput | ByteOutput
  {
    function Value(): nat
    {
      match this
      case Analogue1Byte => 0
      case Analogue2Byte => 1
      case DigitalInput => 2
      case DigitalOutput => 3
      case ByteInput => 4
      case ByteOutput => 5
    }

    /** Sink kinds take data from the controller; data cannot be read from them. */
    predicate IsSink()
    {
      this == DigitalInput || this == ByteInput
    }
  }

  /** Python's `Node.Payload(v)`: the kind whose value is v, or None where
      the enum constructor raises ValueError. */
  function PayloadFromValue(v: int): (r: Option<PayloadKind>)
    ensures r.Some? <==> 0 <= v <= 5
    ensures r.Some? ==> r.value.Value() == v
  {
    if v == 0 then Some(Analogue1Byte)
    else if v == 1 then Some(Analogue2Byte)
    else if v == 2 then Some(DigitalInput)
    else if v == 3 then Some(DigitalOutput)
    else if v == 4 then Some(ByteInput)
    else if v == 5 then Some(ByteOutput)
    else None
  }

  /** Every payload kind is found again from its own wire value, so the
      value-to-kind map is a bijection between 0..5 and the kinds. */
  lemma PayloadValueRoundTrip(k: PayloadKind)
    ensures k.Value() <= 5
    ensures PayloadFromValue(k.Value()) == Some(k)
  {
  }

  /** Distinct packet types have distinct wire values. */
  lemma PacketValueInjective(p: Packet, p': Packet)
    ensures p.Value() == p'.Value() <==> p == p'
  {
  }

  /** A remote node: its 64-bit long address and its identifier string, both as
      the raw bytes the discovery reply carries. */
  datatype Node = Node(longAddr: seq<byte>, identifier: seq<byte>)

  /** The exceptions the core raises. */
  datatype Error =
    | IndexOutOfBounds        // ValueError: slot index outside 0..15
    | SinkPayload             // ValueError: data requested from a sink kind
    | UnknownPayload(v: int)  // ValueError: no payload kind has value v
    | InvalidLiteral          // ValueError from int() on bytes that are not decimal text
    | Nacked                  // ProtocolError on a matching CTRL_NACK
}

=== FILE: scenarios.dfy ===
/** Concrete instances of the protocol's behaviour, one per edge case of
    the decoders and of the queue scan. */
module Scenarios {
  import opened Base
  import opened Protocol
  import opened Codec
  import opened Mailbox

  /** Byte 0x05 advertises six ANALOGUE_1BYTE slots and 0x23 four DIGITAL_INPUT slots. */
  lemma IoResponseExample()
    ensures DecodeIoResponse([0x05, 0x23]) == Ok(map[Analogue1Byte := 6, DigitalInput := 4])
  {
  }

  /** A repeated kind keeps the count of its later byte. */
  lemma IoResponseRepeatedKind()
    ensures DecodeIoResponse([0x05, 0x02]) == Ok(map[Analogue1Byte := 3])
  {
    var data: seq<byte> := [0x05, 0x02];
    assert data[..1] == [0x05];
    assert data[..1][..0] == [];
    assert DecodeIoResponse(data[..1]) == Ok(map[Analogue1Byte := 6]);
    assert map[Analogue1Byte := 6][Analogue1Byte := 3] == map[Analogue1Byte := 3];
  }

  /** Kind 6 does not exist, so the decode raises after the valid first byte. */
  lemma IoResponseUnknownKind()
    ensures DecodeIoResponse([0x05, 0x65]) == Err(UnknownPayload(6))
  {
  }

  /** 0xB0 is 0b10110000, read most significant bit first. */
  lemma BoolVectorExample()
    ensures BoolVector(0xB0) == [true, false, true, true, false, false, false, false]
  {
    var v := BoolVector(0xB0);
    assert v[0] == Bit(0xB0, 7) == true;
    assert v[1] == Bit(0xB0, 6) == false;
    assert v[2] == Bit(0xB0, 5) == true;
    assert v[3] == Bit(0xB0, 4) == true;
    assert v[4] == Bit(0xB0, 3) == false;
    assert v[5] == Bit(0xB0, 2) == false;
    assert v[6] == Bit(0xB0, 1) == false;
    assert v[7] == Bit(0xB0, 0) == false;
  }

  const A: Node := Node([0, 0, 0, 0, 0, 0, 0, 1], [])
  const B: Node := Node([0, 0, 0, 0, 0, 0, 0, 2], [])

  /** The INFO_RESPONSE criteria for slot 0 of kind ANALOGUE_2BYTE (byte 0x10) from A. */
  function InfoFromA(): Criteria
  {
    Criteria(A, InfoResponse, InfoRequest, Some([0x10]), None)
  }

  /** A prefix with nothing after it is not accepted: the scan finds nothing. */
  lemma PrefixNeedsOneMoreByte()
    ensures Scan([Frame(Some(A.longAddr), [21, 0x10])], InfoFromA()) == NoMatch
  {
    var q := [Frame(Some(A.longAddr), [21, 0x10])];
    assert !Accepts(InfoFromA(), q[0]);
    ScanFromStops(q, InfoFromA(), 0);
  }

  /** A NACK from A that precedes A's response wins; B's frame and the later
      response stay queued, in order. */
  lemma NackBeforeResponse()
    ensures var fb := Frame(Some(B.longAddr), [21, 0x10, 7]);
            var nack := Frame(Some(A.longAddr), [254, 20]);
            var resp := Frame(Some(A.longAddr), [21, 0x10, 9]);
            Scan([fb, nack, resp], InfoFromA()) == Nack([fb, resp])
  {
    var fb := Frame(Some(B.longAddr), [21, 0x10, 7]);
    var nack := Frame(Some(A.longAddr), [254, 20]);
    var resp := Frame(Some(A.longAddr), [21, 0x10, 9]);
    ScanDecidedAt([fb, nack, resp], InfoFromA(), 1);
  }

  /** A frame without a source address is skipped even when its body matches. */
  lemma NoSourceAddressSkipped()
    ensures var anon := Frame(None, [21, 0x10, 7]);
            var resp := Frame(Some(A.longAddr), [21, 0x10, 9]);
            Scan([anon, resp], InfoFromA()) == Match([0x10, 9], [anon])
  {
    var anon := Frame(None, [21, 0x10, 7]);
    var resp := Frame(Some(A.longAddr), [21, 0x10, 9]);
    ScanDecidedAt([anon, resp], InfoFromA(), 1);
  }
}

=== FILE: sensor_network.dfy ===
/** The public operations of the sensor network client, each modelled as one
    pass through its body: argument validation, the request body handed to
    the radio, one scan of the queue for the reply, and decoding. */
module SensorNetwork {
  import opened Base
  import opened Protocol
  import opened Codec
  import opened Mailbox

  /** A value read from a source slot. */
  datatype Value =
    | Bits(bits: seq<bool>)       // DIGITAL_OUTPUT
    | Number(n: nat)              // ANALOGUE_1BYTE, ANALOGUE_2BYTE
    | Raw(bytes: seq<byte>)       // BYTE_OUTPUT

  /** What a waiting call sees after one scan of the queue. */
  datatype Reply<+T> =
    | Waiting                                  // nothing decided: scan again, queue unchanged
    | Answered(value: T, queue: seq<Frame>)    // the call returns value
    | Failed(error: Error, queue: seq<Frame>)  // the call raises error

  /** An operation either raises during validation, before anything is
      transmitted, or transmits a request and then waits for the reply. */
  datatype Call<+T> =
    | Invalid(error: Error)
    | Sent(request: seq<byte>, reply: Reply<T>)

  /** Position i holds the frame the scan claimed, and q' is q without it. */
  ghost predicate Claimed(q: seq<Frame>, c: Criteria, i: int, q': seq<Frame>)
  {
    FirstDecisive(q, c, i) && q' == q[..i] + q[i + 1..]
  }

  /** The criteria of get_node_io's wait. */
  function IoCriteria(node: Node): Criteria
  {
    Criteria(node, IoResponse, IoRequest, None, None)
  }

  /** `get_node_io`: send IO_REQUEST, wait for an IO_RESPONSE and decode it
      into a dictionary from payload kind to number of slots. The response is
      consumed even when decoding it raises. */
  function GetNodeIo(q: seq<Frame>, node: Node): (r: Call<map<PayloadKind, nat>>)
    ensures r.Sent? && r.request == [IoRequest.Value()]
    ensures r.reply.Waiting? <==> Scan(q, IoCriteria(node)) == NoMatch
  {
    Sent(IoRequestBody(),
      match Scan(q, IoCriteria(node))
      case NoMatch => Waiting
      case Nack(q') => Failed(Nacked, q')
      case Match(p, q') =>
        match DecodeIoResponse(p)
        case Ok(m) => Answered(m, q')
        case Err(e) => Failed(e, q'))
  }

  /** An answer of get_node_io is the decoding of the body of the first IO_RESPONSE
      frame from the node, which alone leaves the queue; every count in it
      is between 1 and 16. */
  lemma GetNodeIoAnswer(q: seq<Frame>, node: Node)
    requires GetNodeIo(q, node).reply.Answered?
    ensures var a := GetNodeIo(q, node).reply;
            (forall k :: k in a.value ==> 1 <= a.value[k] <= 16) &&
            exists i :: Claimed(q, IoCriteria(node), i, a.queue) && q[i].rfData[0] == IoResponse.Value()
                        && DecodeIoResponse(q[i].rfData[1..]) == Ok(a.value)
  {
    var c := IoCriteria(node);
    ScanSpec(q, c);
    var i :| FirstDecisive(q, c, i) && Scan(q, c) == Outcome(q, c, i);
    IoCountsInRange(q[i].rfData[1..]);
  }

  /** get_node_io fails exactly when the first deciding frame is a NACK of
      IO_REQUEST, or a response naming a payload kind that does not exist. */
  lemma GetNodeIoFailure(q: seq<Frame>, node: Node)
    requires GetNodeIo(q, node).reply.Failed?
    ensures var f := GetNodeIo(q, node).reply;
            exists i :: Claimed(q, IoCriteria(node), i, f.queue) &&
              ((f.error == Nacked && q[i].rfData == [CtrlNack.Value(), IoRequest.Value()]) ||
               (Accepts(IoCriteria(node), q[i]) &&
                  (exists j :: FirstUnknown(q[i].rfData[1..], j) &&
                               f.error == UnknownPayload(HighNibble(q[i].rfData[1..][j])))))
  {
    var c := IoCriteria(node);
    ScanSpec(q, c);
    var i :| FirstDecisive(q, c, i) && Scan(q, c) == Outcome(q, c, i);
    if Accepts(c, q[i]) {
      IoErrorIsFirstUnknown(q[i].rfData[1..]);
    } else {
      assert q[i].rfData == [q[i].rfData[0], q[i].rfData[1]];
    }
  }

  /** The index check shared by get_payload_info and get_data. */
  predicate IndexInRange(index: int)
  {
    0 <= index <= 15
  }

  /** The criteria of get_payload_info's wait: an INFO_RESPONSE from the
      node whose second byte names the requested slot. */
  function InfoCriteria(node: Node, kind: PayloadKind, index: int): Criteria
    requires IndexInRange(index)
  {
    Criteria(node, InfoResponse, InfoRequest, Some([KindIndexByte(kind, index)]), None)
  }

  /** `get_payload_info`: validate the index, send INFO_REQUEST for the slot,
      wait for the INFO_RESPONSE about that slot and return the bytes after its
      kind/index byte. */
  function GetPayloadInfo(q: seq<Frame>, node: Node, kind: PayloadKind, index: int): (r: Call<seq<byte>>)
    ensures r.Invalid? <==> !IndexInRange(index)
    ensures r.Invalid? ==> r.error == IndexOutOfBounds
    ensures r.Sent? ==> r.request == [InfoRequest.Value(), KindIndexByte(kind, index)]
    ensures r.Sent? && r.reply.Answered? ==> |r.reply.value| >= 1
    ensures r.Sent? && r.reply.Failed? ==> r.reply.error == Nacked
    ensures r.Sent? ==> (r.reply.Waiting? <==> Scan(q, InfoCriteria(node, kind, index)) == NoMatch)
  {
    if !IndexInRange(index) then Invalid(IndexOutOfBounds)
    else
      Sent(SlotRequestBody(InfoRequest, kind, index),
        match Scan(q, InfoCriteria(node, kind, index))
        case NoMatch => Waiting
        case Nack(q') => Failed(Nacked, q')
        case Match(p, q') => Answered(p[1..], q'))
  }

  /** An answer of get_payload_info comes from the first deciding frame, an
      INFO_RESPONSE from the node for the requested slot followed by at least
      one byte, and that frame alone leaves the queue. */
  lemma PayloadInfoAnswer(q: seq<Frame>, node: Node, kind: PayloadKind, index: int)
    requires IndexInRange(index)
    requires GetPayloadInfo(q, node, kind, index).reply.Answered?
    ensures var a := GetPayloadInfo(q, node, kind, index).reply;
            exists i :: Claimed(q, InfoCriteria(node, kind, index), i, a.queue) &&
              q[i].rfData == [InfoResponse.Value(), KindIndexByte(kind, index)] + a.value
  {
    var c := InfoCriteria(node, kind, index);
    ScanSpec(q, c);
    var i :| FirstDecisive(q, c, i) && Scan(q, c) == Outcome(q, c, i);
    AcceptedShape(c, q[i]);
    var d := q[i].rfData;
    assert d[1..][1..] == d[2..];
  }

  /** A NACK reply of get_payload_info comes from the first deciding frame, a
      `[CTRL_NACK, INFO_REQUEST]` frame from the node, which alone leaves the queue. */
  lemma PayloadInfoNack(q: seq<Frame>, node: Node, kind: PayloadKind, index: int)
    requires IndexInRange(index)
    requires GetPayloadInfo(q, node, kind, index).reply.Failed?
    ensures var f := GetPayloadInfo(q, node, kind, index).reply;
            exists i :: Claimed(q, InfoCriteria(node, kind, index), i, f.queue) &&
              q[i].rfData == [CtrlNack.Value(), InfoRequest.Value()]
  {
    var c := InfoCriteria(node, kind, index);
    ScanSpec(q, c);
    var i :| FirstDecisive(q, c, i) && Scan(q, c) == Outcome(q, c, i);
    var d := q[i].rfData;
    assert d == [d[0], d[1]];
  }

  /** The total body length get_data waits for: three bytes for a one-byte
      or boolean value, four for a two-byte value, any for raw bytes. */
  function DataCount(kind: PayloadKind): Option<int>
  {
    match kind
    case Analogue2Byte => Some(4)
    case ByteOutput => None
    case _ => Some(3)
  }

  /** The criteria of get_data's wait: a DATA_RESPONSE from the node whose
      second byte names the requested slot, of the kind's length. */
  function DataCriteria(node: Node, kind: PayloadKind, index: int): Criteria
    requires IndexInRange(index)
  {
    Criteria(node, DataResponse, DataRequest, Some([KindIndexByte(kind, index)]), DataCount(kind))
  }

  /** The ANALOGUE_1BYTE decode as written, Python's `int(data)` on a one-byte
      `bytes` object: the byte is parsed as decimal text, so only an ASCII
      digit is accepted, and it yields that digit, not the byte's value. */
  function Analogue1ByteAsWritten(data: seq<byte>): (r: Result<nat, Error>)
    requires |data| == 1
    ensures r.Ok? <==> '0' as int <= data[0] <= '9' as int
    ensures r.Ok? ==> r.value < 10 && r.value + '0' as int == data[0]
    ensures r.Err? ==> r.error == InvalidLiteral
  {
    if '0' as int <= data[0] <= '9' as int then Ok(data[0] - '0' as int) else Err(InvalidLiteral)
  }

  /** The as-written decode rejects the value 5 and reads the value 0x35 as 5. */
  lemma Analogue1ByteAsWrittenCounterexample()
    ensures Analogue1ByteAsWritten([0x05]) == Err(InvalidLiteral)
    ensures Analogue1ByteAsWritten([0x35]) == Ok(5)
  {
  }

  /** Decoding of the value bytes of a DATA_RESPONSE (those after the
      kind/index byte) by payload kind. ANALOGUE_1BYTE takes its one byte as
      an unsigned value, as the other numeric kind does. */
  function DecodeData(kind: PayloadKind, data: seq<byte>): (v: Value)
    requires DataCount(kind).Some? ==> |data| + 2 == DataCount(kind).value
    ensures kind == DigitalOutput ==> v.Bits? && |v.bits| == 8 && PackBits(v.bits) == data[0]
    ensures kind == Analogue1Byte ==> v.Number? && v.n == data[0]
    ensures kind == Analogue2Byte ==> v.Number? && v.n < 65536 && v.n / 256 == data[0] && v.n % 256 == data[1]
    ensures kind == ByteOutput ==> v.Raw? && v.bytes == data
  {
    match kind
    case DigitalOutput => Bits(BoolVector(data[0]))
    case Analogue1Byte => Number(data[0])
    case Analogue2Byte => Number(Uint16(data[0], data[1]))
    case _ => Raw(data)
  }

  /** `get_data`: reject sink kinds, then validate the index, send
      DATA_REQUEST for the slot, wait for the DATA_RESPONSE about that slot
      and decode its value bytes by kind. */
  function GetData(q: seq<Frame>, node: Node, kind: PayloadKind, index: int): (r: Call<Value>)
    ensures r.Invalid? <==> kind.IsSink() || !IndexInRange(index)
    ensures r.Invalid? ==> r.error == if kind.IsSink() then SinkPayload else IndexOutOfBounds
    ensures r.Sent? ==> r.request == [DataRequest.Value(), KindIndexByte(kind, index)]
    ensures r.Sent? && r.reply.Failed? ==> r.reply.error == Nacked
    ensures r.Sent? ==> (r.reply.Waiting? <==> Scan(q, DataCriteria(node, kind, index)) == NoMatch)
    ensures r.Sent? && r.reply.Answered? ==>
              match kind
              case DigitalOutput => r.reply.value.Bits? && |r.reply.value.bits| == 8
              case Analogue1Byte => r.reply.value.Number? && r.reply.value.n < 256
              case Analogue2Byte => r.reply.value.Number? && r.reply.value.n < 65536
              case ByteOutput => r.reply.value.Raw? && |r.reply.value.bytes| >= 1
              case _ => false
  {
    if kind.IsSink() then Invalid(SinkPayload)
    else if !IndexInRange(index) then Invalid(IndexOutOfBounds)
    else
      Sent(SlotRequestBody(DataRequest, kind, index),
        match Scan(q, DataCriteria(node, kind, index))
        case NoMatch => Waiting
        case Nack(q') => Failed(Nacked, q')
        case Match(p, q') => Answered(DecodeData(kind, p[1..]), q'))
  }

  /** The frame an answer of get_data was decoded from: the first deciding
      frame, a DATA_RESPONSE from the node for the requested slot, which alone
      leaves the queue. A boolean answer is bit 7 down to bit 0 of its one value
      byte; a one-byte answer is that byte's value; a two-byte answer is its two
      value bytes, big-endian; a raw answer is every byte after the slot byte. */
  lemma GetDataAnswer(q: seq<Frame>, node: Node, kind: PayloadKind, index: int)
    requires !kind.IsSink() && IndexInRange(index)
    requires GetData(q, node, kind, index).reply.Answered?
    ensures var a := GetData(q, node, kind, index).reply;
            var kib := KindIndexByte(kind, index);
            exists i :: Claimed(q, DataCriteria(node, kind, index), i, a.queue) &&
              match kind
              case DigitalOutput => q[i].rfData == [DataResponse.Value(), kib, PackBits(a.value.bits)]
              case Analogue1Byte => q[i].rfData == [DataResponse.Value(), kib, a.value.n]
              case Analogue2Byte => q[i].rfData == [DataResponse.Value(), kib, a.value.n / 256, a.value.n % 256]
              case ByteOutput => q[i].rfData == [DataResponse.Value(), kib] + a.value.bytes
              case _ => false
  {
    var c := DataCriteria(node, kind, index);
    ScanSpec(q, c);
    var i :| FirstDecisive(q, c, i) && Scan(q, c) == Outcome(q, c, i);
    AcceptedShape(c, q[i]);
    var d := q[i].rfData;
    assert d[1..][1..] == d[2..];
    if kind == DigitalOutput {
      BoolVectorRoundTrip(d[2]);
      assert d[2..] == [d[2]];
    } else if kind == Analogue1Byte {
      assert d[2..] == [d[2]];
    } else if kind == Analogue2Byte {
      assert d[2..] == [d[2], d[3]];
    }
  }

  /** A NACK reply of get_data comes from the first deciding frame, a
      `[CTRL_NACK, DATA_REQUEST]` frame from the node, which alone leaves the queue. */
  lemma GetDataNack(q: seq<Frame>, node: Node, kind: PayloadKind, index: int)
    requires !kind.IsSink() && IndexInRange(index)
    requires GetData(q, node, kind, index).reply.Failed?
    ensures var f := GetData(q, node, kind, index).reply;
            exists i :: Claimed(q, DataCriteria(node, kind, index), i, f.queue) &&
              q[i].rfData == [CtrlNack.Value(), DataRequest.Value()]
  {
    var c := DataCriteria(node, kind, index);
    ScanSpec(q, c);
    var i :| FirstDecisive(q, c, i) && Scan(q, c) == Outcome(q, c, i);
    var d := q[i].rfData;
    assert d == [d[0], d[1]];
  }
}
